=== FILE: README.md ===
# closestAirportAPI — a Dafny model of `get_airport`

The service answers `GET /` with the name and IATA code of the large airport nearest to the
caller's IP address. All of its own logic sits in `get_airport`. First it rewrites the loopback
address. Then it asks a geolocation service where the address is and asks an airport service
for large airports near that point. When no feature's distance is exactly -1.0, it keeps the
earliest feature with the smallest distance. Finally it renders `"{name}: {iata}"`.

This project models that function without the network:

- `Text`: an `Option` type and first/last index search, shared by the parsers below.
- `Decimal`: how Rust prints a `u32` (used for `SEARCH_RADIUS`), with its inverse.
- `Urls`: the loopback rewrite, the geolocation URL and the nearest-airport URL (longitude
  before latitude, fixed radius and size filter). Each URL has a parser that recovers what was
  put in, and the round trips are proved.
- `Nearest`: the selection loop as a left fold from the sentinel `("NONE", "NONE", -1.0)`, and
  the same loop as a method. When no feature's distance is exactly -1.0, the loop is proved
  equal to an independent definition: the earliest index whose distance is minimal.
- `FeatureJson`: the same loop over the raw `features` array. Every `unwrap` is kept, and a
  `None` result stands for a panic. `properties.distance` is read for every feature, but `iata`
  and `name` are read only for a feature that improves the best so far. When every feature has a
  distance, the loop over the raw array is proved to answer exactly when every feature it reads
  names from has them. When it answers, the result is the plain selection over any completion
  of the missing fields.
- `Reply`: the response body and its parser, with round trips both ways.
- `Service`: the whole of `get_airport`. The two HTTP GETs are parameters (functions from URL
  to reply). A `reqwest` error returned through `?` becomes `RequestFailed`, and a failed `unwrap`
  becomes `Panic`. The code has no other error kinds.

Distances are `real`. serde_json only yields finite numbers, and only their order matters.
The coordinates are modelled as the text that serde_json's `Display` prints for the JSON values.
They are inputs here, not derived from floating-point numbers.

Three behaviours of the code to note:

- An empty `features` array is not an error. The loop never runs, and the body is `"NONE: NONE"`.
- Malformed upstream JSON is not a schema error. It panics in an `unwrap`.
- There are no upstream timeouts.

## Model

| member | source | states |
|---|---|---|
| Urls.EffectiveAddress | src/main.rs:72-74 | the loopback address `127.0.0.1` becomes the empty string; every other address passes through unchanged |
| Urls.EffectiveAddressFacts | src/main.rs:72-74 | the rewrite is idempotent, and its result is empty exactly for the loopback or the empty address |
| Urls.GeoUrl | src/main.rs:72-75 | the geolocation URL parses back to the effective address after the fixed base; it ends in `/` exactly when the address is loopback, empty or itself ends in `/` |
| Urls.LoopbackGeoUrl | src/main.rs:72-75 | the loopback client's request is the bare base URL with its trailing slash and an empty address segment |
| Urls.NearUrl | src/main.rs:81 | the airport URL is the fixed base, then the longitude, a slash, the latitude, then the fixed query, in that order |
| Urls.CoordinatesOfNearUrl | src/main.rs:81 | parsing a built airport URL returns (longitude, latitude) in that order whenever the longitude text holds no slash |
| Urls.NearUrlOfCoordinates | src/main.rs:81 | every URL the parser accepts is exactly the URL built from the coordinates it returns |
| Urls.NearQueryShowsRadius | src/main.rs:17 | the query carries the search radius of 1000000000 metres as a `u32` prints it, which fits the `u32`, followed by the large-airport filter |
| Urls.RadiusText | src/main.rs:17 | the radius constant prints as `1000000000` |
| Decimal.Show | src/main.rs:81 | an unsigned integer prints as digits only, at least one, with a leading zero only for zero |
| Decimal.ValueOfShow | src/main.rs:81 | reading the printed digits back gives the number again |
| Nearest.Fold | src/main.rs:89-97 | the loop either keeps its starting best or ends holding one feature's iata, name and distance together; from the sentinel over a non-empty list, it always ends on a feature |
| Nearest.Select | src/main.rs:86-97 | an empty list leaves `("NONE", "NONE", -1.0)`; a non-empty list yields iata, name and distance of one and the same feature |
| Nearest.FoldSnoc | src/main.rs:89-97 | running the loop over one more feature is one more guarded update |
| Nearest.PrefixNearest | src/main.rs:89-97 | when no feature's distance is exactly -1.0, after each iteration the loop holds the earliest minimal-distance feature of the prefix seen so far |
| Nearest.SelectIsFirstNearest | src/main.rs:89-97 | with no distance at the sentinel, the selected distance is at most every feature's, and the result is the record of the earliest feature with the minimal distance and of no other index |
| Nearest.NonNegativeAvoidsSentinel | src/main.rs:88-92 | non-negative distances never collide with the sentinel `-1.0` |
| Nearest.SentinelDistanceIsOverwritten | src/main.rs:88-95 | a feature at exactly `-1.0` re-arms the guard, so the next feature replaces it even when it is farther |
| Nearest.FirstOfTiesWins | src/main.rs:92-95 | for distances 500, 100, 100, 700 the strict comparison keeps the first of the two ties |
| Nearest.NearestAirport | src/main.rs:86-97 | the imperative loop with its three variables computes the fold: the sentinel for an empty list; for a non-empty list where no feature's distance is exactly -1.0, a distance no greater than any feature's |
| FeatureJson.StepChecked | src/main.rs:90-95 | one iteration over a raw feature: a missing `properties` or non-numeric distance panics; a non-improving feature leaves the best unchanged; an improving feature without `iata` or `name` panics; a well-formed one is the plain update |
| FeatureJson.FoldChecked | src/main.rs:89-97 | over well-formed raw features the loop equals the plain fold of their extracted values; any feature without a numeric distance panics |
| FeatureJson.SelectChecked | src/main.rs:86-97 | the selection over the raw `features` array is the plain selection when every feature is well formed and a panic when any distance is missing |
| FeatureJson.StepAgrees | src/main.rs:90-95 | on a feature with a distance, one raw iteration panics exactly when the feature improves but lacks `iata` or `name`; otherwise it is the plain update on any completion of the feature |
| FeatureJson.FoldCheckedCompletes | src/main.rs:89-97 | whenever the raw loop finishes, its result is the plain fold over any completion of the features: fields it never read cannot change the answer |
| FeatureJson.FoldCheckedAnswersIff | src/main.rs:89-97 | when every feature has a distance, the raw loop finishes exactly when each feature that improves at its turn carries its `iata` and `name` |
| FeatureJson.SelectCheckedCompletes | src/main.rs:86-97 | over the raw array from the sentinel, when every feature has a distance, the selection answers exactly when each feature that improves at its turn carries its names, and then it equals the plain selection over any completion |
| FeatureJson.UnselectedFeatureNeedsNoNames | src/main.rs:92-95 | a feature that does not improve is never asked for its `iata` or `name`, so their absence does not panic |
| FeatureJson.SelectedFeatureNeedsNames | src/main.rs:92-95 | an instance of the general rule in `StepChecked`: a closer second feature without a `name` panics |
| Reply.Render | src/main.rs:104 | the body is the name, then exactly one colon and one space, then the code, and nothing after it |
| Reply.ParseRender | src/main.rs:104 | splitting a rendered body at its last colon gives back name and code whenever the code holds no colon |
| Reply.RenderParse | src/main.rs:104 | every body the parser accepts is the rendering of the pair it returns |
| Reply.RenderSentinel | src/main.rs:86-87 | with nothing selected the body is `NONE: NONE` |
| Service.GetAirport | src/main.rs:70-105 | the lookup fails with the request error exactly when a GET it reaches fails in transport; it answers exactly when both documents hold what it reads and the feature loop does not panic, and then the body renders the name and code the loop selected |
| Service.LoopbackIsOwnLocation | src/main.rs:72-76 | the loopback client is looked up exactly as the empty address |
| Service.GetAirportAnswersNearest | src/main.rs:75-104 | with complete documents, non-empty features and no feature's distance exactly -1.0, the body names the earliest nearest feature found near the geolocated point, queried longitude first |
| Service.GetAirportNoFeatures | src/main.rs:84-104 | an empty `features` array gives the body `NONE: NONE`, not an error |
| Service.BerlinLookup | src/main.rs:70-105 | one Berlin feature near the geolocated point gives the body `Berlin Brandenburg: BER` |

## Left out

- The HTTP router, the TCP listener on port 80 and the peer-IP extraction in `root` (src/main.rs:41-57) are framework I/O. Also left out is the `unwrap` that turns any `Err` into a panic of the handler.
- The per-IP rate limiter and its eviction thread (src/main.rs:24-39) are left out. The limiter is built inside `tower_governor` with `.per_second(2)`, which means one token every two seconds, and `.burst_size(20)`. That library's token-bucket code is not part of this model, and the eviction thread is concurrency.
- The `#[cached]` timed cache with its 604800-second lifespan that does not store errors (src/main.rs:63-69) is generated by a macro from a library that is not part of this model. Its timing cannot be stated against visible code. The attribute sets no synchronised writes, so concurrent misses for one address each run the lookup.
- The HTTP GETs and the JSON parsing (src/main.rs:76-77, 82-83) are network I/O and a foreign parser. They are parameters here, and the model starts from the parsed documents.
- How serde_json prints a floating-point latitude or longitude is not modelled. The model takes that text as given.
- `f64` arithmetic is not modelled. Distances are `real`, and only their order is used.
- The `println!` and tracing output (src/main.rs:22-23, 36, 47, 53, 98-102) is logging only.
- Service.GetAirport: the `Panic` outcome is characterised only as the remaining case, when the lookup neither answers nor fails with a request error. It does not say which `unwrap` fired, because every panic ends the request the same way.

=== FILE: decimal.dfy ===
/** Decimal rendering of unsigned integers, as Rust's `Display` prints a `u32`. */
module Decimal {

  /** The largest value of Rust's `u32`. */
  const U32Max: nat := 0xFFFF_FFFF

  predicate IsDigit(c: char) {
    '0' <= c <= '9'
  }

  function DigitChar(d: nat): (c: char)
    requires d < 10
    ensures IsDigit(c)
    ensures c as int - '0' as int == d
  {
    ('0' as int + d) as char
  }

  function DigitValue(c: char): (d: nat)
    requires IsDigit(c)
    ensures d < 10 && DigitChar(d) == c
  {
    c as int - '0' as int
  }

  /** Shortest decimal text of `n`: digits only, no sign, no leading zero. */
  function Show(n: nat): (s: string)
    ensures |s| >= 1
    ensures forall i :: 0 <= i < |s| ==> IsDigit(s[i])
    ensures s[0] == '0' <==> n == 0
    decreases n
  {
    if n < 10 then [DigitChar(n)] else Show(n / 10) + [DigitChar(n % 10)]
  }

  /** Appending a zero digit multiplies by ten. */
  lemma ShowTimesTen(n: nat)
    requires n >= 1
    ensures Show(n * 10) == Show(n) + "0"
  {
    assert (n * 10) / 10 == n && (n * 10) % 10 == 0;
  }

  function Pow10(k: nat): (p: nat)
    ensures p >= 1
  {
    if k == 0 then 1 else 10 * Pow10(k - 1)
  }

  /** A power of ten prints as a one followed by that many zeros. */
  lemma {:induction false} ShowPow10(k: nat)
    ensures Show(Pow10(k)) == "1" + seq(k, _ => '0')
  {
    if k > 0 {
      ShowPow10(k - 1);
      ShowTimesTen(Pow10(k - 1));
      assert "1" + seq(k, _ => '0') == "1" + seq(k - 1, _ => '0') + "0";
    }
  }

  /** The number a string of digits denotes. */
  function Value(s: string): (n: nat)
    requires forall i :: 0 <= i < |s| ==> IsDigit(s[i])
    decreases |s|
  {
    if |s| == 0 then 0 else Value(s[..|s| - 1]) * 10 + DigitValue(s[|s| - 1])
  }

  /** Reading back the rendered text gives the number again: `Show` loses nothing. */
  lemma {:induction false} ValueOfShow(n: nat)
    ensures Value(Show(n)) == n
    decreases n
  {
    if n >= 10 {
      ValueOfShow(n / 10);
      var s := Show(n);
      assert s[..|s| - 1] == Show(n / 10);
    }
  }
}

=== FILE: feature_json.dfy ===
/**
 * The features as `get_airport` reads them out of the parsed JSON (src/main.rs:89-95), with
 * every `unwrap` kept: a `None` result is a panic. `properties` and `distance` are read for every
 * feature; `iata` and `name` only for a feature that improves on the best so far.
 */
module FeatureJson {
  import opened Text
  import opened Nearest

  /**
   * The `properties` object of one feature: each field is `None` when the key is absent or the
   * value has the wrong JSON type (`as_f64` / `as_str` give `None`).
   */
  datatype Properties = Properties(distance: Option<real>, iata: Option<string>, name: Option<string>)

  /** One element of `features`; `properties` is `None` when the key is absent or the element is no object. */
  datatype JsonFeature = JsonFeature(properties: Option<Properties>)

  predicate HasDistance(jf: JsonFeature) {
    jf.properties.Some? && jf.properties.value.distance.Some?
  }

  predicate WellFormed(jf: JsonFeature) {
    HasDistance(jf) && jf.properties.value.iata.Some? && jf.properties.value.name.Some?
  }

  predicate AllWellFormed(jfs: seq<JsonFeature>) {
    forall i :: 0 <= i < |jfs| ==> WellFormed(jfs[i])
  }

  function ToFeature(jf: JsonFeature): (f: Feature)
    requires WellFormed(jf)
  {
    var p := jf.properties.value;
    Feature(p.iata.value, p.name.value, p.distance.value)
  }

  /** The extracted features of a well-formed list, in document order. */
  function Features(jfs: seq<JsonFeature>): (fs: seq<Feature>)
    requires AllWellFormed(jfs)
    ensures |fs| == |jfs|
    ensures forall i :: 0 <= i < |jfs| ==> fs[i] == ToFeature(jfs[i])
  {
    seq(|jfs|, i requires 0 <= i < |jfs| && WellFormed(jfs[i]) => ToFeature(jfs[i]))
  }

  /** One loop iteration with its unwraps; `None` is a panic. */
  function StepChecked(b: Best, jf: JsonFeature): (r: Option<Best>)
    ensures WellFormed(jf) ==> r == Some(Step(b, ToFeature(jf)))
    ensures !HasDistance(jf) ==> r.None?
    ensures HasDistance(jf) && !Improves(b, jf.properties.value.distance.value) ==> r == Some(b)
    ensures HasDistance(jf) && Improves(b, jf.properties.value.distance.value) && !WellFormed(jf) ==> r.None?
  {
    match jf.properties
    case None => None
    case Some(p) =>
      match p.distance
      case None => None
      case Some(d) =>
        if Improves(b, d) then
          match p.iata
          case None => None
          case Some(iata) =>
            match p.name
            case None => None
            case Some(name) => Some(Best(iata, name, d))
        else Some(b)
  }

  /** The loop with its unwraps, from best `b`. */
  function FoldChecked(b: Best, jfs: seq<JsonFeature>): (r: Option<Best>)
    ensures AllWellFormed(jfs) ==> r == Some(Fold(b, Features(jfs)))
    ensures (exists i :: 0 <= i < |jfs| && !HasDistance(jfs[i])) ==> r.None?
    decreases |jfs|
  {
    if |jfs| == 0 then Some(b)
    else
      match StepChecked(b, jfs[0])
      case None => None
      case Some(b') =>
        assert AllWellFormed(jfs) ==> Features(jfs)[1..] == Features(jfs[1..]);
        assert forall i :: 1 <= i < |jfs| ==> jfs[1..][i - 1] == jfs[i];
        FoldChecked(b', jfs[1..])
  }

  /**
   * The selection over the raw `features` array: well-formed features give exactly the fold
   * over their extracted values, and any feature without a numeric distance panics.
   */
  function SelectChecked(jfs: seq<JsonFeature>): (r: Option<Best>)
    ensures AllWellFormed(jfs) ==> r == Some(Select(Features(jfs)))
    ensures (exists i :: 0 <= i < |jfs| && !HasDistance(jfs[i])) ==> r.None?
  {
    FoldChecked(Initial, jfs)
  }

  /** `f` fills in `jf`: the same distance, and the `iata` and `name` that `jf` has, if any. */
  predicate Agrees(jf: JsonFeature, f: Feature) {
    && HasDistance(jf)
    && jf.properties.value.distance.value == f.distance
    && (jf.properties.value.iata.Some? ==> jf.properties.value.iata.value == f.iata)
    && (jf.properties.value.name.Some? ==> jf.properties.value.name.value == f.name)
  }

  /** `fs` completes the raw features: every feature has a distance and `fs` agrees with each one. */
  predicate Completes(jfs: seq<JsonFeature>, fs: seq<Feature>) {
    |jfs| == |fs| && forall i :: 0 <= i < |jfs| ==> Agrees(jfs[i], fs[i])
  }

  /** Every feature that improves on the best at its turn, running from `b`, has its `iata` and `name`. */
  ghost predicate NamesWhereRead(b: Best, jfs: seq<JsonFeature>, fs: seq<Feature>)
    requires |jfs| == |fs|
  {
    forall i :: 0 <= i < |fs| && Improves(Fold(b, fs[..i]), fs[i].distance) ==> WellFormed(jfs[i])
  }

  /** A step that does not panic is the plain step on any completion of the feature. */
  lemma StepAgrees(b: Best, jf: JsonFeature, f: Feature)
    requires Agrees(jf, f)
    ensures StepChecked(b, jf).Some? <==> !Improves(b, f.distance) || WellFormed(jf)
    ensures StepChecked(b, jf).Some? ==> StepChecked(b, jf) == Some(Step(b, f))
  {
  }

  /** Skipping the first feature: the tail's prefixes fold from one step later. */
  lemma FoldTail(b: Best, fs: seq<Feature>, i: nat)
    requires 0 < i <= |fs|
    ensures Fold(b, fs[..i]) == Fold(Step(b, fs[0]), fs[1..][..i - 1])
  {
    assert fs[..i][1..] == fs[1..][..i - 1];
  }

  /**
   * Whenever the raw loop finishes, it selects what the plain loop selects on any completion:
   * fields it never read cannot change the answer.
   */
  lemma {:induction false} FoldCheckedCompletes(b: Best, jfs: seq<JsonFeature>, fs: seq<Feature>)
    requires Completes(jfs, fs) && FoldChecked(b, jfs).Some?
    ensures FoldChecked(b, jfs) == Some(Fold(b, fs))
    decreases |jfs|
  {
    if |jfs| > 0 {
      StepAgrees(b, jfs[0], fs[0]);
      FoldCheckedCompletes(Step(b, fs[0]), jfs[1..], fs[1..]);
    }
  }

  /**
   * The raw loop finishes exactly when every feature that improves at its turn carries its
   * `iata` and `name`; features that never improve may lack them.
   */
  lemma {:induction false} FoldCheckedAnswersIff(b: Best, jfs: seq<JsonFeature>, fs: seq<Feature>)
    requires Completes(jfs, fs)
    ensures FoldChecked(b, jfs).Some? <==> NamesWhereRead(b, jfs, fs)
    decreases |jfs|
  {
    if |jfs| > 0 {
      StepAgrees(b, jfs[0], fs[0]);
      var b' := Step(b, fs[0]);
      assert Completes(jfs[1..], fs[1..]);
      FoldCheckedAnswersIff(b', jfs[1..], fs[1..]);
      assert fs[..0] == [];
      forall i | 0 < i < |fs|
        ensures Fold(b, fs[..i]) == Fold(b', fs[1..][..i - 1])
      {
        FoldTail(b, fs, i);
      }
      if NamesWhereRead(b, jfs, fs) {
        assert StepChecked(b, jfs[0]).Some?;
        forall i | 0 <= i < |fs[1..]| && Improves(Fold(b', fs[1..][..i]), fs[1..][i].distance)
          ensures WellFormed(jfs[1..][i])
        {
          assert Fold(b, fs[..i + 1]) == Fold(b', fs[1..][..i]);
        }
      } else if StepChecked(b, jfs[0]).Some? {
        var i :| 0 <= i < |fs| && Improves(Fold(b, fs[..i]), fs[i].distance) && !WellFormed(jfs[i]);
        assert i > 0;
        assert Fold(b, fs[..i]) == Fold(b', fs[1..][..i - 1]);
        assert !NamesWhereRead(b', jfs[1..], fs[1..]);
      }
    } else {
      assert NamesWhereRead(b, jfs, fs);
    }
  }

  /**
   * The selection over the raw array, for any completion `fs`: it answers exactly when every
   * feature it reads names from has them, and then it answers the plain selection over `fs`.
   */
  lemma SelectCheckedCompletes(jfs: seq<JsonFeature>, fs: seq<Feature>)
    requires Completes(jfs, fs)
    ensures SelectChecked(jfs).Some? <==> NamesWhereRead(Initial, jfs, fs)
    ensures SelectChecked(jfs).Some? ==> SelectChecked(jfs) == Some(Select(fs))
  {
    FoldCheckedAnswersIff(Initial, jfs, fs);
    if SelectChecked(jfs).Some? {
      FoldCheckedCompletes(Initial, jfs, fs);
    }
  }

  /** A feature that never improves on the best is not asked for its `iata` or `name`. */
  lemma UnselectedFeatureNeedsNoNames()
    ensures SelectChecked([JsonFeature(Some(Properties(Some(100.0), Some("BER"), Some("Berlin")))),
                           JsonFeature(Some(Properties(Some(200.0), None, None)))])
            == Some(Best("BER", "Berlin", 100.0))
  {
  }

  /** A feature that does improve panics when its `name` is missing. */
  lemma SelectedFeatureNeedsNames()
    ensures SelectChecked([JsonFeature(Some(Properties(Some(200.0), Some("BER"), Some("Berlin")))),
                           JsonFeature(Some(Properties(Some(100.0), Some("TXL"), None)))])
            == None
  {
  }
}

=== FILE: nearest.dfy ===
/**
 * The nearest-airport selection of `get_airport` (src/main.rs:86-97): a left fold over the
 * features that keeps the running best `(iata, name, distance)`, starting from the sentinel
 * `("NONE", "NONE", -1.0)`. Distances are `real`: the values serde_json yields are finite and
 * only their order is used.
 */
module Nearest {

  /** One element of the `features` array, its properties already extracted. */
  datatype Feature = Feature(iata: string, name: string, distance: real)

  /**
   * What the loop variables `iata`, `name` and `distance` hold between iterations. It is kept
   * apart from `Feature` because it starts as the sentinel `("NONE", "NONE", -1.0)`, which is no
   * feature of the list.
   */
  datatype Best = Best(iata: string, name: string, distance: real)

  /** The sentinel distance meaning "nothing recorded yet". */
  const NoDistance: real := -1.0

  const Initial: Best := Best("NONE", "NONE", NoDistance)

  /** The best as it stands right after `f` was recorded. */
  function Record(f: Feature): (b: Best) {
    Best(f.iata, f.name, f.distance)
  }

  /** The update guard: nothing recorded yet, or strictly closer. */
  predicate Improves(b: Best, d: real) {
    b.distance == NoDistance || d < b.distance
  }

  /** One loop iteration. */
  function Step(b: Best, f: Feature): (r: Best) {
    if Improves(b, f.distance) then Record(f) else b
  }

  /** The loop run from best `b` over `fs`; the result is `b` or one feature recorded whole. */
  function Fold(b: Best, fs: seq<Feature>): (r: Best)
    ensures r == b || exists i :: 0 <= i < |fs| && r == Record(fs[i])
    ensures |fs| > 0 && b.distance == NoDistance ==> exists i :: 0 <= i < |fs| && r == Record(fs[i])
    decreases |fs|
  {
    if |fs| == 0 then b else Fold(Step(b, fs[0]), fs[1..])
  }

  /**
   * The selection as `get_airport` performs it. An empty list leaves the sentinel; otherwise
   * name, iata and distance all come from one and the same feature.
   */
  function Select(fs: seq<Feature>): (r: Best)
    ensures |fs| == 0 ==> r == Initial
    ensures |fs| > 0 ==> exists i :: 0 <= i < |fs| && r == Record(fs[i])
  {
    Fold(Initial, fs)
  }

  /** No feature sits exactly at the sentinel distance; true whenever all distances are non-negative. */
  predicate AvoidsSentinel(fs: seq<Feature>) {
    forall i :: 0 <= i < |fs| ==> fs[i].distance != NoDistance
  }

  /** Reference definition: `k` is the earliest index whose distance is the minimum. */
  ghost predicate IsFirstNearest(fs: seq<Feature>, k: int) {
    && 0 <= k < |fs|
    && (forall j :: 0 <= j < |fs| ==> fs[k].distance <= fs[j].distance)
    && (forall j :: 0 <= j < k ==> fs[k].distance < fs[j].distance)
  }

  /** The fold over one more feature is one more step. */
  lemma {:induction false} FoldSnoc(b: Best, fs: seq<Feature>, f: Feature)
    ensures Fold(b, fs + [f]) == Step(Fold(b, fs), f)
    decreases |fs|
  {
    if |fs| > 0 {
      assert (fs + [f])[1..] == fs[1..] + [f];
      FoldSnoc(Step(b, fs[0]), fs[1..], f);
    } else {
      assert (fs + [f])[1..] == [];
    }
  }

  /** On every non-empty prefix, the fold has recorded the first nearest feature of that prefix. */
  lemma {:induction false} PrefixNearest(fs: seq<Feature>, n: nat) returns (k: nat)
    requires AvoidsSentinel(fs) && 0 < n <= |fs|
    ensures k < n && IsFirstNearest(fs[..n], k) && Select(fs[..n]) == Record(fs[k])
  {
    assert fs[..n] == fs[..n - 1] + [fs[n - 1]];
    FoldSnoc(Initial, fs[..n - 1], fs[n - 1]);
    if n == 1 {
      k := 0;
    } else {
      var k' := PrefixNearest(fs, n - 1);
      if fs[n - 1].distance < fs[k'].distance {
        k := n - 1;
      } else {
        k := k';
      }
    }
  }

  /**
   * The selection is the first-occurrence argmin: its distance is at most every feature's,
   * and it is the record of the earliest feature at that distance, and of no other.
   */
  lemma SelectIsFirstNearest(fs: seq<Feature>)
    requires |fs| > 0 && AvoidsSentinel(fs)
    ensures forall j :: 0 <= j < |fs| ==> Select(fs).distance <= fs[j].distance
    ensures exists k :: IsFirstNearest(fs, k) && Select(fs) == Record(fs[k])
    ensures forall k :: IsFirstNearest(fs, k) ==> Select(fs) == Record(fs[k])
  {
    var k := PrefixNearest(fs, |fs|);
    assert fs[..|fs|] == fs;
    forall k' | IsFirstNearest(fs, k')
      ensures k' == k
    {
    }
  }

  /** Non-negative distances, as the upstream reports them, never collide with the sentinel. */
  lemma NonNegativeAvoidsSentinel(fs: seq<Feature>)
    requires forall i :: 0 <= i < |fs| ==> fs[i].distance >= 0.0
    ensures AvoidsSentinel(fs)
  {
  }

  /**
   * A feature at exactly the sentinel distance re-arms the guard, so the next feature replaces
   * it unconditionally even though it is farther: the argmin needs `AvoidsSentinel`.
   */
  lemma SentinelDistanceIsOverwritten()
    ensures Select([Feature("AAA", "A", -1.0), Feature("BBB", "B", 5.0)]) == Best("BBB", "B", 5.0)
  {
  }

  /** Distances 500, 100, 100, 700: the first of the two closest wins. */
  lemma FirstOfTiesWins()
    ensures Select([Feature("A", "a", 500.0), Feature("B", "b", 100.0),
                    Feature("C", "c", 100.0), Feature("D", "d", 700.0)]) == Best("B", "b", 100.0)
  {
  }

  /** The loop of `get_airport` as written, with its three mutable variables. */
  method NearestAirport(fs: seq<Feature>) returns (iata: string, name: string, distance: real)
    ensures Best(iata, name, distance) == Select(fs)
    ensures |fs| == 0 ==> iata == "NONE" && name == "NONE" && distance == -1.0
    ensures |fs| > 0 && AvoidsSentinel(fs) ==>
              forall j :: 0 <= j < |fs| ==> distance <= fs[j].distance
  {
    iata, name, distance := "NONE", "NONE", NoDistance;
    for i := 0 to |fs|
      invariant Best(iata, name, distance) == Select(fs[..i])
    {
      assert fs[..i + 1] == fs[..i] + [fs[i]];
      FoldSnoc(Initial, fs[..i], fs[i]);
      var newDistance := fs[i].distance;
      if distance == NoDistance || newDistance < distance {
        distance := newDistance;
        iata := fs[i].iata;
        name := fs[i].name;
      }
    }
    assert fs[..|fs|] == fs;
    if |fs| > 0 && AvoidsSentinel(fs) {
      SelectIsFirstNearest(fs);
    }
  }
}

=== FILE: reply.dfy ===
/** The response body `get_airport` returns (src/main.rs:104): the name, a colon, a space, the code. */
module Reply {
  import opened Text

  const Separator: string := ": "

  /** The body for an airport: `name` then `": "` then `iata`, with nothing after the code. */
  function Render(name: string, iata: string): (s: string)
    ensures |s| == |name| + 2 + |iata|
    ensures s[..|name|] == name
    ensures s[|name|] == ':' && s[|name| + 1] == ' '
    ensures s[|name| + 2..] == iata
  {
    name + Separator + iata
  }

  /** Splits a body at its last colon, which must be followed by a space. */
  function Parse(s: string): (r: Option<(string, string)>)
  {
    match LastIndexOf(s, ':')
    case None => None
    case Some(k) =>
      if k + 1 < |s| && s[k + 1] == ' ' then Some((s[..k], s[k + 2..])) else None
  }

  /** Rendering then parsing gives back the pair whenever the code holds no colon. */
  lemma {:induction false} ParseRender(name: string, iata: string)
    requires ':' !in iata
    ensures Parse(Render(name, iata)) == Some((name, iata))
  {
    var s := Render(name, iata);
    assert s[|name| + 2..] == iata;
    var k := LastIndexOf(s, ':').value;
    assert k == |name|;
  }

  /** Every body the parser accepts is the rendering of what it returns, with a colon-free code. */
  lemma {:induction false} RenderParse(s: string, name: string, iata: string)
    requires Parse(s) == Some((name, iata))
    ensures ':' !in iata
    ensures Render(name, iata) == s
  {
    var k := LastIndexOf(s, ':').value;
    assert s[k + 2..] == s[k + 1..][1..];
    assert s == s[..k] + ": " + s[k + 2..];
  }

  /** With nothing selected the body is the two sentinels. */
  lemma RenderSentinel()
    ensures Render("NONE", "NONE") == "NONE: NONE"
  {
  }
}

=== FILE: service.dfy ===
/**
 * `get_airport` end to end (src/main.rs:70-105), with the two HTTP GETs passed in as functions
 * from URL to what came back. `reqwest` failures propagate through `?` as `RequestFailed`; a failed
 * `unwrap` is a `Panic`.
 */
module Service {
  import opened Text
  import opened Urls
  import opened Nearest
  import opened FeatureJson
  import opened Reply

  /** What one `reqwest::get(..).text()` followed by `serde_json::from_str` gives. */
  datatype Fetched<+T> = TransportError | Malformed | Json(doc: T)

  /**
   * The geolocation document: for each key, the text serde_json's `Display` prints for its value,
   * or `None` when the key is absent (or the document is no object).
   */
  datatype GeoDoc = GeoDoc(longitude: Option<string>, latitude: Option<string>)

  /** The nearest-airport document: its `features` array, or `None` when absent or not an array. */
  datatype NearDoc = NearDoc(features: Option<seq<JsonFeature>>)

  /** `Ok` body, the `reqwest::Error` returned by `?`, or a panic from an `unwrap`. */
  datatype Outcome = Ok(body: string) | RequestFailed | Panic

  /** The (longitude, latitude) texts, when both keys are present; otherwise an `unwrap` panics. */
  function Point(geo: GeoDoc): (p: Option<(string, string)>) {
    if geo.longitude.Some? && geo.latitude.Some? then Some((geo.longitude.value, geo.latitude.value))
    else None
  }

  /** True when `get_airport` gets as far as the second GET and `near` answers it with `reply`. */
  ghost predicate NearReplied(address: string, geolocate: string -> Fetched<GeoDoc>,
                              near: string -> Fetched<NearDoc>, reply: Fetched<NearDoc>)
  {
    && geolocate(GeoUrl(address)).Json?
    && Point(geolocate(GeoUrl(address)).doc).Some?
    && var (longitude, latitude) := Point(geolocate(GeoUrl(address)).doc).value;
       near(NearUrl(longitude, latitude)) == reply
  }

  /**
   * The lookup for a client address. It fails with `RequestFailed` exactly when one of the two
   * GETs it reaches fails in transport; it answers exactly when both documents hold what it reads.
   */
  function GetAirport(address: string, geolocate: string -> Fetched<GeoDoc>,
                      near: string -> Fetched<NearDoc>): (o: Outcome)
    ensures o == RequestFailed <==>
              || geolocate(GeoUrl(address)).TransportError?
              || NearReplied(address, geolocate, near, TransportError)
    ensures o.Ok? <==>
              exists jfs :: NearReplied(address, geolocate, near, Json(NearDoc(Some(jfs))))
                            && SelectChecked(jfs).Some?
    ensures o.Ok? ==>
              exists jfs :: NearReplied(address, geolocate, near, Json(NearDoc(Some(jfs))))
                            && SelectChecked(jfs).Some?
                            && o.body == Render(SelectChecked(jfs).value.name, SelectChecked(jfs).value.iata)
  {
    match geolocate(GeoUrl(address))
    case TransportError => RequestFailed
    case Malformed => Panic
    case Json(geo) =>
      match Point(geo)
      case None => Panic
      case Some((longitude, latitude)) =>
        match near(NearUrl(longitude, latitude))
        case TransportError => RequestFailed
        case Malformed => Panic
        case Json(doc) =>
          match doc.features
          case None => Panic
          case Some(jfs) =>
            match SelectChecked(jfs)
            case None => Panic
            case Some(b) => Ok(Render(b.name, b.iata))
  }

  /** The loopback client is looked up exactly as the empty address: the service asks about itself. */
  lemma LoopbackIsOwnLocation(geolocate: string -> Fetched<GeoDoc>, near: string -> Fetched<NearDoc>)
    ensures GetAirport(Loopback, geolocate, near) == GetAirport("", geolocate, near)
  {
  }

  /**
   * When both documents are complete, the features non-empty, and no feature's distance is
   * exactly -1.0, the body names the first nearest feature, from the coordinates the geolocation
   * gave, longitude first.
   */
  lemma {:induction false} GetAirportAnswersNearest(address: string, geolocate: string -> Fetched<GeoDoc>,
                                                    near: string -> Fetched<NearDoc>, longitude: string,
                                                    latitude: string, jfs: seq<JsonFeature>)
    requires geolocate(GeoUrl(address)) == Json(GeoDoc(Some(longitude), Some(latitude)))
    requires near(NearUrl(longitude, latitude)) == Json(NearDoc(Some(jfs)))
    requires AllWellFormed(jfs) && |jfs| > 0 && AvoidsSentinel(Features(jfs))
    ensures exists k :: IsFirstNearest(Features(jfs), k)
                        && GetAirport(address, geolocate, near) == Ok(Render(jfs[k].properties.value.name.value,
                                                                             jfs[k].properties.value.iata.value))
  {
    SelectIsFirstNearest(Features(jfs));
    var k :| IsFirstNearest(Features(jfs), k) && Select(Features(jfs)) == Record(Features(jfs)[k]);
    assert GetAirport(address, geolocate, near) == Ok(Render(Features(jfs)[k].name, Features(jfs)[k].iata));
  }

  /** An empty `features` array is no error: the body is the sentinel pair. */
  lemma GetAirportNoFeatures(address: string, geolocate: string -> Fetched<GeoDoc>,
                             near: string -> Fetched<NearDoc>, longitude: string, latitude: string)
    requires geolocate(GeoUrl(address)) == Json(GeoDoc(Some(longitude), Some(latitude)))
    requires near(NearUrl(longitude, latitude)) == Json(NearDoc(Some([])))
    ensures GetAirport(address, geolocate, near) == Ok("NONE: NONE")
  {
  }

  /** A single Berlin feature for a client in Berlin gives the body "Berlin Brandenburg: BER". */
  lemma BerlinLookup()
    ensures GetAirport("203.0.113.7",
                       url => if url == GeoUrl("203.0.113.7") then Json(GeoDoc(Some("13.4"), Some("52.5")))
                              else TransportError,
                       url => if url == NearUrl("13.4", "52.5")
                              then Json(NearDoc(Some([JsonFeature(Some(Properties(Some(12000.0), Some("BER"),
                                                                                  Some("Berlin Brandenburg"))))])))
                              else TransportError)
            == Ok("Berlin Brandenburg: BER")
  {
  }
}

=== FILE: text.dfy ===
/** Small string helpers shared by the URL and reply models. */
module Text {

  /** A value that may be missing: a JSON key that is absent, a search that found nothing. */
  datatype Option<+T> = None | Some(value: T)

  /** Index of the first occurrence of `c` in `s`, if any. */
  function FirstIndexOf(s: string, c: char): (r: Option<nat>)
    ensures r.None? <==> c !in s
    ensures r.Some? ==> r.value < |s| && s[r.value] == c && c !in s[..r.value]
    decreases |s|
  {
    if |s| == 0 then None
    else if s[0] == c then Some(0)
    else
      match FirstIndexOf(s[1..], c)
      case None => None
      case Some(k) =>
        assert s[..k + 1] == [s[0]] + s[1..][..k];
        Some(k + 1)
  }

  /** Index of the last occurrence of `c` in `s`, if any. */
  function LastIndexOf(s: string, c: char): (r: Option<nat>)
    ensures r.None? <==> c !in s
    ensures r.Some? ==> r.value < |s| && s[r.value] == c && c !in s[r.value + 1..]
    decreases |s|
  {
    if |s| == 0 then None
    else if s[|s| - 1] == c then Some(|s| - 1)
    else
      match LastIndexOf(s[..|s| - 1], c)
      case None =>
        assert s == s[..|s| - 1] + [s[|s| - 1]];
        None
      case Some(k) =>
        assert s[k + 1..] == s[..|s| - 1][k + 1..] + [s[|s| - 1]];
        Some(k)
  }
}

=== FILE: urls.dfy ===
/**
 * The two upstream request URLs that `get_airport` builds (src/main.rs:72-75 and 81):
 * the loopback rewrite, the geolocation URL and the nearest-airport URL, each with a
 * parser that recovers what was put in.
 */
module Urls {
  import opened Text
  import Decimal

  /** The address a local client connects from; the geolocation service is then asked about itself. */
  const Loopback: string := "127.0.0.1"

  const GeoBase: string := "https://freeipapi.com/api/json/"
  const NearBase: string := "https://port-api.com/airport/near/"

  /** `SEARCH_RADIUS`, a `u32` number of metres. */
  const SearchRadius: nat := 1000000000

  /** The fixed query of the nearest-airport request; `NearQueryShowsRadius` ties it to `SearchRadius`. */
  const NearQuery: string := "?search_radius=1000000000&airport_size=large_airport"

  /** The address actually sent upstream: the loopback address becomes the empty path segment. */
  function EffectiveAddress(address: string): (a: string)
    ensures address == Loopback ==> a == ""
    ensures address != Loopback ==> a == address
  {
    if address == Loopback then "" else address
  }

  /** The rewrite is idempotent, and it empties exactly the loopback and the empty address. */
  lemma EffectiveAddressFacts(address: string)
    ensures EffectiveAddress(EffectiveAddress(address)) == EffectiveAddress(address)
    ensures EffectiveAddress(address) == "" <==> address == Loopback || address == ""
  {
  }

  /** Geolocation request for a client address. */
  function GeoUrl(address: string): (url: string)
    ensures GeoAddress(url) == Some(EffectiveAddress(address))
    ensures url[|url| - 1] == '/' <==>
              address == Loopback || address == "" || address[|address| - 1] == '/'
  {
    GeoBase + EffectiveAddress(address)
  }

  /** The address segment of a geolocation URL, if `url` is one. */
  function GeoAddress(url: string): (r: Option<string>)
    ensures r.Some? <==> GeoBase <= url
    ensures r.Some? ==> url == GeoBase + r.value
  {
    if GeoBase <= url then Some(url[|GeoBase|..]) else None
  }

  /** The loopback client yields the bare base URL, ending in a slash. */
  lemma LoopbackGeoUrl()
    ensures GeoUrl(Loopback) == "https://freeipapi.com/api/json/"
    ensures GeoAddress(GeoUrl(Loopback)) == Some("")
  {
  }

  /** Nearest-airport request for a point: longitude first, then latitude, then the fixed query. */
  function NearUrl(longitude: string, latitude: string): (url: string)
    ensures |url| == |NearBase| + |longitude| + 1 + |latitude| + |NearQuery|
    ensures url[..|NearBase|] == NearBase
    ensures url[|NearBase|..|NearBase| + |longitude|] == longitude
    ensures url[|NearBase| + |longitude|] == '/'
    ensures url[|NearBase| + |longitude| + 1..|url| - |NearQuery|] == latitude
    ensures url[|url| - |NearQuery|..] == NearQuery
  {
    NearBase + longitude + "/" + latitude + NearQuery
  }

  /** The (longitude, latitude) path segments of a nearest-airport URL, split at the first slash. */
  function Coordinates(url: string): (r: Option<(string, string)>)
  {
    if NearBase <= url && |NearBase| + |NearQuery| <= |url| && url[|url| - |NearQuery|..] == NearQuery then
      var path := url[|NearBase|..|url| - |NearQuery|];
      match FirstIndexOf(path, '/')
      case None => None
      case Some(k) => Some((path[..k], path[k + 1..]))
    else None
  }

  /** The query carries the radius as the `u32` prints it, with the large-airport filter. */
  lemma NearQueryShowsRadius()
    ensures SearchRadius <= Decimal.U32Max
    ensures NearQuery == "?search_radius=" + Decimal.Show(SearchRadius) + "&airport_size=large_airport"
  {
    RadiusText();
    var radius := Decimal.Show(SearchRadius);
    assert "?search_radius=" + radius + "&airport_size=large_airport"
        == "?search_radius=" + "1000000000" + "&airport_size=large_airport";
  }

  lemma RadiusText()
    ensures Decimal.Show(SearchRadius) == "1000000000"
  {
    assert SearchRadius == Decimal.Pow10(9);
    Decimal.ShowPow10(9);
    assert seq(9, _ => '0') == "000000000";
  }

  /** Building then parsing a nearest-airport URL gives back the coordinates in their order. */
  lemma {:induction false} CoordinatesOfNearUrl(longitude: string, latitude: string)
    requires '/' !in longitude
    ensures Coordinates(NearUrl(longitude, latitude)) == Some((longitude, latitude))
  {
    var url := NearUrl(longitude, latitude);
    var path := url[|NearBase|..|url| - |NearQuery|];
    assert path == longitude + "/" + latitude;
    assert path[..|longitude|] == longitude;
    assert path[|longitude|] == '/';
    var k := FirstIndexOf(path, '/').value;
    assert k == |longitude|;
    assert path[k + 1..] == latitude;
  }

  /** Every URL the parser accepts is exactly the one built from what it returns. */
  lemma {:induction false} NearUrlOfCoordinates(url: string, longitude: string, latitude: string)
    requires Coordinates(url) == Some((longitude, latitude))
    ensures '/' !in longitude
    ensures url == NearUrl(longitude, latitude)
  {
    var path := url[|NearBase|..|url| - |NearQuery|];
    var k := FirstIndexOf(path, '/').value;
    assert longitude == path[..k];
    assert path == longitude + "/" + latitude;
    assert url == url[..|NearBase|] + path + url[|url| - |NearQuery|..];
  }
}
